=== FILE: README.md ===
# Aisland window core in Dafny

Aisland is a macOS utility. It keeps a small pill at the display notch and expands it into a widget dashboard. This project models the three pieces of Aisland that carry logic, and proves properties of each:

- **Window geometry.** `WindowManager` places the floating panel at the notch (180×32, centred, top edge on the screen top). It computes the dashboard frame (780×480, centred, top edge 40 points below the screen top) and shows, hides and toggles the panel. `AislandWindow` centres the panel on the visible frame. It also drops the panel under a status-bar button and pulls it back on screen with three `if` checks. All of these are pure functions over `Rect` values with `real` coordinates.
- **Collapse/expand state machine** (`ContentView`). The state is `isExpanded` plus the `hoverTimer` handle. Events are tap, hover enter/exit, Escape and the passage of time. Every timer that is armed and not yet fired or invalidated is kept explicitly, because the handle names only the most recent one. The views are abstracted to the frame request their `onAppear` makes. `Step` covers the requests made on a change of `isExpanded`. The pill's first appearance, before any event, also asks for the collapsed frame; `FirstRenderOnScreen` and `FirstRenderWithoutScreen` cover that request.
- **Mouse-move debouncer** (`HoverDetector`). It has a start/stop flag, the global and local event monitors, a cancel-and-restart one-shot 0.5 s timer, the last mouse location, and the hover handling that a firing triggers.

Modules:

| file | module | contents |
|---|---|---|
| `geometry.dfy` | `Geometry` | `Point`, `Size`, `Rect` (min/mid/max edges), `Screen` |
| `wrappers.dfy` | `Wrappers` | `Option`, for Swift optionals |
| `timers.dfy` | `Timers` | one-shot timers: cancel, due/waiting split |
| `traces.dfy` | `Traces` | running a step function over an event sequence |
| `window_manager.dfy` | `WindowManager` | notch/dashboard frames, show/hide/toggle |
| `aisland_window.dfy` | `AislandWindow` | centring, status-item placement and clamp |
| `content_view.dfy` | `ContentView` | collapse/expand state machine and its frame requests |
| `hover_detector.dfy` | `HoverDetector` | mouse-move debouncer |

Time is measured in integer milliseconds. A `Tick(elapsed)` event advances the clock and fires every pending timer whose due time has been reached. `NSScreen.main` and the status button's frame are parameters; `None` means there is none.

The model follows the code's constants and behaviour exactly:

- The collapsed size is 180×32.
- The dashboard is 780×480, 40 points below the top, and is not clamped to the screen.
- Hovering away never collapses the dashboard.
- The hover-expand delay is 0.3 s. The separate debouncer uses 0.5 s.

## Model

| member | source | states |
|---|---|---|
| WindowManager.SetupWindow | Aisland/Windows/WindowManager.swift:26-38 | the window is created hidden at the collapsed size 180×32; with a main screen it is centred on the screen width with its top edge on the screen top, and without one it stays at the origin |
| WindowManager.PositionAtNotch | Aisland/Windows/WindowManager.swift:41-53 | keeps the window's size and visibility and puts its centre at screenWidth/2 and its top edge at the screen's maxY; no window or no main screen leaves the manager unchanged |
| WindowManager.CentredOnScreenIffOriginZero | Aisland/Windows/WindowManager.swift:49 | centring uses the screen width only, so the window's centre is the screen's centre exactly when the screen's origin x is 0 |
| WindowManager.ShowWindow | Aisland/Windows/WindowManager.swift:56-63 | a hidden window becomes visible, keeping its size: at the notch when there is a main screen, and where it is otherwise; a visible window is left exactly as it is; no window means no change |
| WindowManager.ShowIdempotent | Aisland/Windows/WindowManager.swift:59-62 | showing twice is showing once |
| WindowManager.HideWindow | Aisland/Windows/WindowManager.swift:66-68 | afterwards the window is never visible; its frame is kept and a missing window stays missing |
| WindowManager.ToggleWindow | Aisland/Windows/WindowManager.swift:71-79 | with a window, visibility flips: a visible window is hidden exactly as `hideWindow` hides it, keeping its frame, and a hidden one is shown exactly as `showWindow` shows it; with none, nothing changes |
| WindowManager.ToggleTwiceRestoresVisibility | Aisland/Windows/WindowManager.swift:71-79 | toggling twice restores visibility, and a visible window comes back at the notch |
| WindowManager.IsWindowVisible | Aisland/Windows/WindowManager.swift:125-127 | the window's own visibility when there is a window, and false when there is none |
| WindowManager.ExpandWindow | Aisland/Windows/WindowManager.swift:82-101 | the window becomes 780×480, centred at screenWidth/2, with its top edge 40 below the screen's maxY, and keeps its visibility; no window or no main screen is a no-op |
| WindowManager.ExpandExample | Aisland/Windows/WindowManager.swift:89-97 | a 1440×900 screen gives the dashboard origin (330, 380) |
| WindowManager.CollapseWindow | Aisland/Windows/WindowManager.swift:104-122 | the window becomes 180×32, centred at screenWidth/2, with its top edge on the maxY of the main screen, or of the zero frame when there is none; only a missing window is a no-op |
| WindowManager.CollapseExample | Aisland/Windows/WindowManager.swift:114-118 | a 1440×900 screen gives the notch origin (630, 868) |
| WindowManager.CollapseWithoutScreen | Aisland/Windows/WindowManager.swift:112-115 | without a main screen the window still moves, to origin (-90, -32) |
| WindowManager.CollapseAgreesWithNotch | Aisland/Windows/WindowManager.swift:41-53 | collapsing a collapsed-size window lands exactly where notch positioning puts it |
| WindowManager.TargetsShareCentre | Aisland/Windows/WindowManager.swift:89-91 | the dashboard and notch frames share the centre screenWidth/2, and the dashboard's top edge is 40 below the notch frame's |
| AislandWindow.CenterOnScreen | Aisland/Windows/AislandWindow.swift:56-64 | the size is kept and the window's centre equals the visible frame's centre; no main screen leaves the frame unchanged |
| AislandWindow.PlaceBelowButton | Aisland/Windows/AislandWindow.swift:74-81 | the first placement keeps the size, is centred on the button's midX, and puts its top edge 8 below the button's minY |
| AislandWindow.ClampToVisible | Aisland/Windows/AislandWindow.swift:86-98 | only the origin moves; a window below the bottom is moved up to the visible minY and one not below keeps its y; a window within the width keeps its x, one past the right edge that fits ends with maxX at the visible maxX, and one past the left edge ends with minX at the visible minX; afterwards minX ≥ visible minX and minY ≥ visible minY, and maxX ≤ visible maxX when the window fits the width; a frame already on screen is unchanged |
| AislandWindow.ClampFixedPointIff | Aisland/Windows/AislandWindow.swift:88-96 | the clamp leaves a frame unchanged exactly when it is on screen, or when it is too wide and already at the left edge and not below the bottom |
| AislandWindow.ClampIdempotent | Aisland/Windows/AislandWindow.swift:86-98 | clamping twice is clamping once |
| AislandWindow.ClampFitsOnScreen | Aisland/Windows/AislandWindow.swift:88-96 | a window no wider than the visible frame ends up inside it horizontally and not below it |
| AislandWindow.ClampKeepsTopOverflow | Aisland/Windows/AislandWindow.swift:94-96 | the top edge is never clamped: a window reaching above the visible frame still does afterwards |
| AislandWindow.PositionNearStatusItem | Aisland/Windows/AislandWindow.swift:67-100 | with no button or no button screen the window is centred instead; with a main screen the result is the placement below the button corrected by the on-screen clamp, so it satisfies the clamp bounds and a placement already on screen is kept; without one the raw placement stands; the size never changes |
| ContentView.InitialIsCollapsed | Aisland/Views/ContentView.swift:11-12 | the view starts collapsed with no handle and no armed timer, and satisfies the timer invariant |
| ContentView.Step | Aisland/Views/ContentView.swift:14-57 | after the first render, a frame request is made exactly when `isExpanded` changes: the expanded frame on the way up, the collapsed frame on the way down; a tap always leaves it expanded, Escape always collapsed, and hover enter/exit never change it; an exit with no handle held changes nothing, so it cancels no older timer; only Escape collapses; the passage of time expands exactly when an armed timer comes due, keeps armed exactly the timers not yet due, and keeps the handle |
| ContentView.TapExpands | Aisland/Views/ContentView.swift:28-32 | a tap on the collapsed pill expands it with one expanded-frame request; while expanded a tap is a no-op |
| ContentView.HoverEnterArms | Aisland/Views/ContentView.swift:37-43 | hover-enter while collapsed arms one new 0.3 s timer, makes it the handle and keeps all earlier timers armed; while expanded it is a no-op |
| ContentView.HoverThenDelayExpands | Aisland/Views/ContentView.swift:37-43 | hover-enter and then 0.3 s expands the collapsed pill with one request; the fired timer stays in the handle |
| ContentView.HoverExitCancelsOnlyHandle | Aisland/Views/ContentView.swift:44-47 | hover-exit with a handle clears it and cancels exactly the timer it names, leaving `isExpanded` as it was |
| ContentView.ExitAfterFireOnlyClearsHandle | Aisland/Views/ContentView.swift:44-47 | invalidating a timer that already fired changes nothing but the handle |
| ContentView.HoverExitBeforeDelayStaysCollapsed | Aisland/Views/ContentView.swift:37-47 | enter followed by exit, with no older timer armed, never expands and makes no request |
| ContentView.OverwrittenTimerStillExpands | Aisland/Views/ContentView.swift:39-46 | two enters then an exit cancel only the second timer, so the first still expands the pill 0.3 s later |
| ContentView.EscapeCollapses | Aisland/Views/ContentView.swift:49-56 | Escape while expanded collapses with one collapsed-frame request; while collapsed it is a no-op |
| ContentView.StepPreservesValid | Aisland/Views/ContentView.swift:37-47 | every event keeps timer ids below the next id and each armed timer due within 0.3 s |
| ContentView.RunPreservesValid | Aisland/Views/ContentView.swift:37-47 | any sequence of events keeps that invariant |
| ContentView.RunRequestsAlternate | Aisland/Views/ContentView.swift:16-27 | over any event sequence the frame requests alternate, starting with the one that leaves the start state, and the last one matches the final state |
| ContentView.Render | Aisland/Views/ContentView.swift:19-26 | the expanded request puts the window in the dashboard frame when there is a main screen and changes nothing otherwise; the collapsed request puts it in the notch frame of the main screen or of the zero frame; visibility is always kept; no request changes nothing |
| ContentView.StepRequestSetsFrame | Aisland/Views/ContentView.swift:16-27 | the frame a step requests is the dashboard frame when the new state is expanded and the notch frame when it is collapsed |
| ContentView.FirstRenderOnScreen | Aisland/Views/ContentView.swift:22-27 | the pill's first appearance asks for the collapsed frame without any change of `isExpanded`; on a window just set up on a main screen that request changes nothing |
| ContentView.FirstRenderWithoutScreen | Aisland/Views/ContentView.swift:22-27 | without a main screen that first collapsed-frame request moves the window just set up at the origin to the notch frame of the zero screen |
| WindowManager.CollapseAfterSetup | Aisland/Windows/WindowManager.swift:26-38 | a window just set up on a main screen already sits at the notch frame, so collapsing it on that screen changes nothing |
| WindowManager.SetupWithoutScreen | Aisland/Windows/WindowManager.swift:26-38 | without a main screen the window is set up hidden at the origin at the collapsed size |
| WindowManager.CollapseAfterSetupWithoutScreen | Aisland/Windows/WindowManager.swift:104-122 | collapsing the window set up without a main screen moves it to the notch frame of the zero screen |
| WindowManager.ZeroScreenTarget | Aisland/Windows/WindowManager.swift:112-118 | the notch frame of the `.zero` fallback screen is 180×32 with its origin at (-90, -32) |
| HoverDetector.InitialIsValid | Aisland/Managers/HoverDetector.swift:12-16 | a new detector is not monitoring, has no timer and satisfies the invariant |
| HoverDetector.Start | Aisland/Managers/HoverDetector.swift:19-33 | afterwards the detector is monitoring; while already monitoring nothing changes; otherwise the global monitor is installed and one more local monitor is added |
| HoverDetector.Stop | Aisland/Managers/HoverDetector.swift:36-47 | afterwards it is not monitoring; when it was, the global monitor is gone, the handle is nil and no timer is pending; when it was not, nothing changes; local monitors stay |
| HoverDetector.HandleMouseMoved | Aisland/Managers/HoverDetector.swift:49-62 | the location is stored and the handle names a new timer; from a valid state the only pending timer is a 0.5 s one carrying that location |
| HoverDetector.Deliver | Aisland/Managers/HoverDetector.swift:22-30 | a move seen by several monitors runs the handler repeatedly, and the result is the same single 0.5 s timer for the location |
| HoverDetector.Moved | Aisland/Managers/HoverDetector.swift:49-62 | a move no monitor listens to changes nothing; otherwise exactly one timer, due in 0.5 s and carrying the location, replaces whatever was pending |
| HoverDetector.Advance | Aisland/Managers/HoverDetector.swift:59-66 | a firing hands over the last stored location, once, and only once the pending timer is due; it changes nothing else in the detector (monitoring flag, monitors, handle, stored location) |
| HoverDetector.Step | Aisland/Managers/HoverDetector.swift:19-66 | start, stop and a mouse move are exactly `startMonitoring`, `stopMonitoring` and the move's delivery to the listening monitors; the passage of time is the timer firing; only the passage of time triggers hover handling |
| HoverDetector.StepPreservesValid | Aisland/Managers/HoverDetector.swift:49-62 | every event keeps at most one timer pending, namely the handled one, carrying the last location |
| HoverDetector.RunPreservesValid | Aisland/Managers/HoverDetector.swift:49-62 | over any event sequence at most one timer is ever pending |
| HoverDetector.BurstReportsLastOnly | Aisland/Managers/HoverDetector.swift:53-61 | moves spaced less than 0.5 s apart and then a 0.5 s rest produce exactly one hover handling, for the last location |
| HoverDetector.StartEnablesGlobalHovers | Aisland/Managers/HoverDetector.swift:19-33 | a fresh detector ignores a global move until monitoring starts; after `startMonitoring` the same move is handled 0.5 s later |
| HoverDetector.LocalMovesAfterStop | Aisland/Managers/HoverDetector.swift:27-30 | the local monitor is never removed: after a stop, a move over the app's own window still leads to a hover handling 0.5 s later |
| HoverDetector.HasTextAtPoint | Aisland/Managers/HoverDetector.swift:100-103 | false for every point |
| Timers.Cancel | Aisland/Views/ContentView.swift:44-46 | invalidating a held timer removes exactly the timer with that identity; invalidating one that is no longer pending changes nothing |
| Timers.Invalidate | Aisland/Managers/HoverDetector.swift:53 | the optional-chained `hoverTimer?.invalidate()`: a nil handle changes nothing, and a held one removes exactly the timer it names |

## Left out

- Animation durations and timing curves (Aisland/Windows/WindowManager.swift:94-95, 108-109) and the SwiftUI transitions: an animated frame change is modelled as its final frame.
- Panel style, level, collection behaviour and appearance (Aisland/Windows/AislandWindow.swift:12-45): window-server configuration with no placement logic.
- `detectTextUnderCursor` and `getSelectedText` (Aisland/Managers/HoverDetector.swift:69-97): accessibility and workspace stubs with TODO bodies. Hover handling is the location it is handed, reported as an output.
- The SwiftUI view files (ExpandedView, NotchView, WidgetCardView). They appear in the model only through the frame request each view's `onAppear` makes. ExpandedView's close button and its `onClose` callback are not modelled (Aisland/Views/ExpandedView.swift:13, 46-54). Neither is the Escape key shortcut that button claims. Escape is modelled only through the root view's `onExitCommand` (Aisland/Views/ContentView.swift:49-56). NotchView's `isHovering` input is not modelled either (Aisland/Views/NotchView.swift:13). The root view builds both views without these arguments (Aisland/Views/ContentView.swift:17, 23), so the code as written does not supply them.
- `AppDelegate` and `AislandApp`: bootstrap and menu glue. `statusItemClicked` only forwards to `toggleWindow`.
- Floating point: CGFloat is modelled as `real`, so rounding is not modelled.
- Negative rectangle extents: widths and heights are non-negative, so CGRect's standardisation of negative sizes is not modelled.
- Changes of the main screen between calls are not modelled as events. Each operation takes the main screen it sees as a parameter.
- Run-loop latency and timer tolerance: a timer fires on the first `Tick` that reaches its due time.
- The order in which timers due at the same tick fire: the timer contracts state membership only. No order is observable here, because ContentView's timers carry no payload and HoverDetector has at most one timer pending.
- The status button: the source distinguishes a missing button from a button whose window has no screen. Both lead to centring, so the model has one `None` for the two.
- HoverDetector.Deliver: the source installs one local monitor per `startMonitoring` and each calls the handler. The model runs the handler that many times; the timer identities consumed in between are not observable.

=== FILE: aisland_window.dfy ===
/** Placement helpers of the floating panel: centring on the main screen's
    visible frame, and dropping the panel under a status-bar button and
    pulling it back on screen. Each returns the panel's new frame. */
module AislandWindow {
  import opened Wrappers
  import opened Geometry

  /** Vertical distance between the status-bar button and the panel. */
  const StatusItemGap: real := 8.0

  /** Centres `frame` on the main screen's visible frame, keeping its size;
      without a main screen the frame is unchanged. */
  function CenterOnScreen(frame: Rect, main: Option<Screen>): (r: Rect)
    ensures r.Extents() == frame.Extents()
    ensures main.None? ==> r == frame
    ensures main.Some? ==>
              r.MidX() == main.value.visibleFrame.MidX() && r.MidY() == main.value.visibleFrame.MidY()
  {
    match main
    case None => frame
    case Some(screen) =>
      var v := screen.visibleFrame;
      frame.WithOrigin(v.MidX() - frame.width / 2.0, v.MidY() - frame.height / 2.0)
  }

  /** The first placement under a status-bar button whose frame in screen
      coordinates is `button`: centred on the button, top edge 8 points
      below the button's bottom. */
  function PlaceBelowButton(frame: Rect, button: Rect): (r: Rect)
    ensures r.Extents() == frame.Extents()
    ensures r.MidX() == button.MidX()
    ensures r.MaxY() == button.MinY() - StatusItemGap
  {
    frame.WithOrigin(button.MidX() - frame.width / 2.0, button.MinY() - frame.height - StatusItemGap)
  }

  /** True when `frame` needs no correction against `visible`: within it
      left and right, and not below its bottom. The top is never checked. */
  ghost predicate OnScreen(frame: Rect, visible: Rect)
  {
    visible.MinX() <= frame.MinX() && frame.MaxX() <= visible.MaxX() && visible.MinY() <= frame.MinY()
  }

  /** The on-screen correction: right edge first, then left edge, then
      bottom edge, each a plain `if`. Only the origin moves. */
  function ClampToVisible(frame: Rect, visible: Rect): (r: Rect)
    ensures r.Extents() == frame.Extents()
    // the left-edge check runs last, so it always wins
    ensures r.MinX() >= visible.MinX()
    ensures frame.width <= visible.width ==> r.MaxX() <= visible.MaxX()
    ensures frame.width > visible.width ==> r.MinX() == visible.MinX()
    ensures r.MinY() >= visible.MinY()
    // the panel is only ever pushed up, so a top edge above the visible frame stays there
    ensures r.MaxY() >= frame.MaxY()
    ensures frame.MinY() >= visible.MinY() ==> r.MinY() == frame.MinY()
    ensures frame.MinY() < visible.MinY() ==> r.MinY() == visible.MinY()
    // an axis needing no correction keeps its coordinate
    ensures visible.MinX() <= frame.MinX() && frame.MaxX() <= visible.MaxX() ==> r.MinX() == frame.MinX()
    ensures frame.MaxX() > visible.MaxX() && frame.width <= visible.width ==> r.MaxX() == visible.MaxX()
    ensures frame.MinX() < visible.MinX() ==> r.MinX() == visible.MinX()
    ensures OnScreen(frame, visible) ==> r == frame
  {
    var x1 := if frame.MaxX() > visible.MaxX() then visible.MaxX() - frame.width else frame.x;
    var x2 := if x1 < visible.MinX() then visible.MinX() else x1;
    var y1 := if frame.MinY() < visible.MinY() then visible.MinY() else frame.y;
    frame.WithOrigin(x2, y1)
  }

  /** Places the panel under the status item's button. `button` is the
      button's frame on screen, or None when there is no button or it is not
      on a screen; then the panel is centred instead. The correction uses the
      main screen, and is skipped when there is none. */
  function PositionNearStatusItem(frame: Rect, button: Option<Rect>, main: Option<Screen>): (r: Rect)
    ensures r.Extents() == frame.Extents()
    ensures button.None? ==> r == CenterOnScreen(frame, main)
    ensures button.Some? && main.None? ==>
              r.MidX() == button.value.MidX() && r.MaxY() == button.value.MinY() - StatusItemGap
    ensures button.Some? && main.Some? ==>
              && r.MinX() >= main.value.visibleFrame.MinX()
              && r.MinY() >= main.value.visibleFrame.MinY()
              && (frame.width <= main.value.visibleFrame.width ==> r.MaxX() <= main.value.visibleFrame.MaxX())
    ensures button.Some? && main.Some? ==>
              r == ClampToVisible(PlaceBelowButton(frame, button.value), main.value.visibleFrame)
    ensures button.Some? && main.Some? && OnScreen(PlaceBelowButton(frame, button.value), main.value.visibleFrame) ==>
              r == PlaceBelowButton(frame, button.value)
  {
    match button
    case None => CenterOnScreen(frame, main)
    case Some(b) =>
      var placed := PlaceBelowButton(frame, b);
      match main
      case None => placed
      case Some(screen) => ClampToVisible(placed, screen.visibleFrame)
  }

  /** The correction leaves a frame alone exactly when it is on screen, or
      when it is wider than the visible frame and already at its left edge
      (and not below it). */
  lemma ClampFixedPointIff(frame: Rect, visible: Rect)
    ensures ClampToVisible(frame, visible) == frame <==>
              (OnScreen(frame, visible) ||
               (frame.MinX() == visible.MinX() && frame.width > visible.width && frame.MinY() >= visible.MinY()))
  {
  }

  /** Correcting twice is correcting once. */
  lemma ClampIdempotent(frame: Rect, visible: Rect)
    ensures ClampToVisible(ClampToVisible(frame, visible), visible) == ClampToVisible(frame, visible)
  {
  }

  /** A frame that fits in the visible frame ends up on screen. */
  lemma ClampFitsOnScreen(frame: Rect, visible: Rect)
    requires frame.width <= visible.width
    ensures OnScreen(ClampToVisible(frame, visible), visible)
  {
  }

  /** The top edge is not clamped: a panel reaching above the visible frame
      still does after the correction. */
  lemma ClampKeepsTopOverflow(frame: Rect, visible: Rect)
    requires frame.MaxY() > visible.MaxY()
    ensures !visible.Encloses(ClampToVisible(frame, visible))
  {
  }
}

=== FILE: content_view.dfy ===
/** The collapse/expand state machine of the root view: `isExpanded` plus the
    `hoverTimer` handle. The views themselves are abstracted to the frame
    request their `onAppear` makes: the dashboard appearing asks for the
    expanded frame, the notch pill appearing asks for the collapsed frame.
    Timers that were scheduled and neither fired nor invalidated are kept
    explicitly, since the handle only ever names the most recent one. */
module ContentView {
  import opened Wrappers
  import opened Geometry
  import opened Timers
  import Traces
  import WindowManager

  /** Hovering over the collapsed pill expands it after 0.3 s. */
  const HoverExpandDelayMs: nat := 300

  datatype Event =
    | Tap            // tap gesture on the notch pill (only present while collapsed)
    | HoverEnter     // onHover(true)
    | HoverExit      // onHover(false)
    | Escape         // onExitCommand
    | Tick(elapsed: nat)  // the run loop advances; due timers fire

  datatype FrameRequest = ExpandFrame | CollapseFrame

  datatype State = State(
    expanded: bool,
    hoverTimer: Option<nat>,      // the handle: id of the most recently armed timer
    pending: seq<Timer<()>>,      // armed timers that have neither fired nor been invalidated
    now: nat,
    nextId: nat)

  datatype Transition = Transition(next: State, request: Option<FrameRequest>)

  /** The request made by the view that appears for a given `isExpanded`. */
  function RequestFor(expanded: bool): FrameRequest
  {
    if expanded then ExpandFrame else CollapseFrame
  }

  /** Both `@State` properties start out false and nil. */
  const Initial: State := State(false, None, [], 0, 0)

  /** Timers are identified by ids below `nextId`, and each pending timer is
      due within the next 0.3 s. */
  ghost predicate Valid(s: State)
  {
    && (s.hoverTimer.Some? ==> s.hoverTimer.value < s.nextId)
    && forall t :: t in s.pending ==> t.id < s.nextId && s.now < t.due <= s.now + HoverExpandDelayMs
  }

  /** One event. A view swap, and so a frame request, happens exactly when
      `isExpanded` changes. */
  function Step(s: State, e: Event): (t: Transition)
    ensures t.request == Some(ExpandFrame) <==> !s.expanded && t.next.expanded
    ensures t.request == Some(CollapseFrame) <==> s.expanded && !t.next.expanded
    ensures e.Tap? ==> t.next.expanded
    ensures e.Escape? ==> !t.next.expanded
    // hover never collapses, and never expands by itself: only a timer does
    ensures e.HoverEnter? || e.HoverExit? ==> t.next.expanded == s.expanded
    // an exit with no handle held cancels nothing
    ensures e.HoverExit? && s.hoverTimer.None? ==> t == Transition(s, None)
    // only Escape collapses
    ensures s.expanded && !t.next.expanded ==> e.Escape?
    // the passage of time expands exactly when some armed timer comes due,
    // and leaves armed exactly the timers not yet due; the handle is kept
    ensures e.Tick? ==>
              (t.next.expanded <==> s.expanded || exists tm :: tm in s.pending && tm.due <= s.now + e.elapsed)
    ensures e.Tick? ==> forall tm :: tm in t.next.pending <==> tm in s.pending && s.now + e.elapsed < tm.due
    ensures e.Tick? ==> t.next.now == s.now + e.elapsed && t.next.hoverTimer == s.hoverTimer
    ensures t.next.now >= s.now
  {
    match e
    case Tap =>
      if s.expanded then Transition(s, None)
      else Transition(s.(expanded := true), Some(ExpandFrame))
    case HoverEnter =>
      if s.expanded then Transition(s, None)
      else
        var timer := Timer(s.nextId, s.now + HoverExpandDelayMs, ());
        Transition(s.(hoverTimer := Some(s.nextId), pending := s.pending + [timer], nextId := s.nextId + 1), None)
    case HoverExit =>
      if s.hoverTimer.None? then Transition(s, None)
      else Transition(s.(hoverTimer := None, pending := Invalidate(s.pending, s.hoverTimer)), None)
    case Escape =>
      if s.expanded then Transition(s.(expanded := false), Some(CollapseFrame))
      else Transition(s, None)
    case Tick(elapsed) =>
      var now := s.now + elapsed;
      var fired := Due(s.pending, now);
      var s' := s.(now := now, pending := Waiting(s.pending, now));
      if fired != [] && !s.expanded then
        assert fired[0] in fired;  // a witness for the timer that came due
        Transition(s'.(expanded := true), Some(ExpandFrame))
      else Transition(s', None)
  }

  /** The requests a transition makes, as a list of zero or one. */
  function Requests(t: Transition): seq<FrameRequest>
  {
    if t.request.Some? then [t.request.value] else []
  }

  /** `Step` in the shape the trace runner takes. */
  function StepPair(s: State, e: Event): (State, seq<FrameRequest>)
  {
    var t := Step(s, e);
    (t.next, Requests(t))
  }

  /** A sequence of events; the outputs are the frame requests in order. */
  function Run(s: State, es: seq<Event>): Traces.Trace<State, FrameRequest>
  {
    Traces.Run(StepPair, s, es)
  }

  /** Requests that alternate, the first one leaving `from`. */
  ghost predicate Alternating(from: bool, reqs: seq<FrameRequest>)
    decreases |reqs|
  {
    reqs == [] || (reqs[0] == RequestFor(!from) && Alternating(!from, reqs[1..]))
  }

  /** Applies a frame request to the window manager. */
  function Render(m: WindowManager.Manager, main: Option<Screen>, req: Option<FrameRequest>): (r: WindowManager.Manager)
    ensures req.None? || m.window.None? ==> r == m
    ensures r.window.Some? <==> m.window.Some?
    ensures r.window.Some? ==> r.window.value.visible == m.window.value.visible
    ensures req == Some(ExpandFrame) && main.None? ==> r == m
    ensures req == Some(ExpandFrame) && m.window.Some? && main.Some? ==>
              WindowManager.TopAnchored(r.window.value.frame, main.value.frame,
                                        WindowManager.ExpandedSize, WindowManager.ExpandedTopGap)
    ensures req == Some(CollapseFrame) && m.window.Some? ==>
              WindowManager.TopAnchored(r.window.value.frame, WindowManager.ScreenFrameOrZero(main),
                                        WindowManager.CollapsedSize, 0.0)
  {
    match req
    case None => m
    case Some(ExpandFrame) => WindowManager.ExpandWindow(m, main)
    case Some(CollapseFrame) => WindowManager.CollapseWindow(m, main)
  }

  // ---------------------------------------------------------------------
  // Properties
  // ---------------------------------------------------------------------

  lemma InitialIsCollapsed()
    ensures Valid(Initial) && !Initial.expanded && Initial.hoverTimer.None? && Initial.pending == []
  {
  }

  lemma StepPreservesValid(s: State, e: Event)
    requires Valid(s)
    ensures Valid(Step(s, e).next)
  {
  }

  /** Hover-enter while collapsed arms exactly one new 0.3 s timer and makes
      it the handle, leaving every earlier timer armed; while expanded it
      does nothing. */
  lemma HoverEnterArms(s: State)
    ensures s.expanded ==> Step(s, HoverEnter) == Transition(s, None)
    ensures !s.expanded ==>
              var n := Step(s, HoverEnter).next;
              && n.hoverTimer == Some(s.nextId)
              && Timer(s.nextId, s.now + HoverExpandDelayMs, ()) in n.pending
              && (forall t :: t in s.pending ==> t in n.pending)
              && |n.pending| == |s.pending| + 1
  {
  }

  /** Hover-exit invalidates only the timer the handle names and clears the
      handle; timers armed earlier stay armed. */
  lemma HoverExitCancelsOnlyHandle(s: State)
    requires s.hoverTimer.Some?
    ensures var n := Step(s, HoverExit).next;
            && n.hoverTimer.None?
            && n.expanded == s.expanded
            && (forall t :: t in n.pending <==> t in s.pending && t.id != s.hoverTimer.value)
  {
  }

  /** A tap on the collapsed pill expands it; while expanded there is no pill
      to tap, so repeated taps never collapse. */
  lemma TapExpands(s: State)
    ensures !s.expanded ==> Step(s, Tap) == Transition(s.(expanded := true), Some(ExpandFrame))
    ensures s.expanded ==> Step(s, Tap) == Transition(s, None)
  {
  }

  /** The handle of a timer that already fired is still held; the next
      hover-exit invalidates it, which changes nothing but the handle. */
  lemma ExitAfterFireOnlyClearsHandle(s: State)
    requires s.hoverTimer.Some?
    requires forall t :: t in s.pending ==> t.id != s.hoverTimer.value
    ensures Step(s, HoverExit) == Transition(s.(hoverTimer := None), None)
  {
  }

  /** Escape collapses the dashboard and is a no-op while collapsed. */
  lemma EscapeCollapses(s: State)
    ensures s.expanded ==> Step(s, Escape) == Transition(s.(expanded := false), Some(CollapseFrame))
    ensures !s.expanded ==> Step(s, Escape) == Transition(s, None)
  {
  }

  /** Hover-enter on the collapsed pill, then 0.3 s: the pill expands, with
      one request for the expanded frame. The fired timer is not cleared
      from the handle. */
  lemma HoverThenDelayExpands(s: State)
    requires Valid(s) && !s.expanded
    ensures var tr := Run(s, [HoverEnter, Tick(HoverExpandDelayMs)]);
            && tr.final.expanded
            && tr.outputs == [ExpandFrame]
            && tr.final.hoverTimer == Some(s.nextId)
            && (forall t :: t in tr.final.pending ==> t.id != s.nextId)
  {
    var s1 := Step(s, HoverEnter).next;
    var timer := Timer(s.nextId, s.now + HoverExpandDelayMs, ());
    assert timer in s1.pending;
    assert timer in Due(s1.pending, s1.now + HoverExpandDelayMs);
    Traces.RunPair(StepPair, s, HoverEnter, Tick(HoverExpandDelayMs));
  }

  /** Hovering and leaving again before the delay, with no older timer
      armed: nothing ever expands. */
  lemma HoverExitBeforeDelayStaysCollapsed(s: State, elapsed: nat)
    requires Valid(s) && !s.expanded && s.pending == []
    ensures var tr := Run(s, [HoverEnter, HoverExit, Tick(elapsed)]);
            !tr.final.expanded && tr.outputs == []
  {
    var s1 := Step(s, HoverEnter).next;
    assert s1.pending == [Timer(s.nextId, s.now + HoverExpandDelayMs, ())];
    var s2 := Step(s1, HoverExit).next;
    assert s2.pending == [];
    assert [HoverEnter, HoverExit, Tick(elapsed)] == [HoverEnter] + [HoverExit, Tick(elapsed)];
    Traces.RunAppend(StepPair, s, [HoverEnter], [HoverExit, Tick(elapsed)]);
    Traces.RunSingle(StepPair, s, HoverEnter);
    Traces.RunPair(StepPair, s1, HoverExit, Tick(elapsed));
  }

  /** The stale timer: two hover-enters without an exit between them arm two
      timers, the handle keeps only the second, so the exit cancels only the
      second, and the first still expands the pill 0.3 s later although the
      cursor has left. */
  lemma OverwrittenTimerStillExpands(s: State)
    requires !s.expanded
    ensures var tr := Run(s, [HoverEnter, HoverEnter, HoverExit, Tick(HoverExpandDelayMs)]);
            tr.final.expanded && tr.outputs == [ExpandFrame]
  {
    var first := Timer(s.nextId, s.now + HoverExpandDelayMs, ());
    var s1 := s.(hoverTimer := Some(s.nextId), pending := s.pending + [first], nextId := s.nextId + 1);
    assert StepPair(s, HoverEnter) == (s1, []);
    var second := Timer(s.nextId + 1, s.now + HoverExpandDelayMs, ());
    var s2 := s1.(hoverTimer := Some(s.nextId + 1), pending := s1.pending + [second], nextId := s.nextId + 2);
    assert StepPair(s1, HoverEnter) == (s2, []);
    var s3 := s2.(hoverTimer := None, pending := Cancel(s2.pending, s.nextId + 1));
    assert StepPair(s2, HoverExit) == (s3, []);
    assert first in s3.pending;
    assert first in Due(s3.pending, s3.now + HoverExpandDelayMs);
    var t4 := Step(s3, Tick(HoverExpandDelayMs));
    assert t4.next.expanded && t4.request == Some(ExpandFrame);
    var es := [HoverEnter, HoverEnter, HoverExit, Tick(HoverExpandDelayMs)];
    assert es == [HoverEnter, HoverEnter] + [HoverExit, Tick(HoverExpandDelayMs)];
    Traces.RunAppend(StepPair, s, [HoverEnter, HoverEnter], [HoverExit, Tick(HoverExpandDelayMs)]);
    Traces.RunPair(StepPair, s, HoverEnter, HoverEnter);
    Traces.RunPair(StepPair, s2, HoverExit, Tick(HoverExpandDelayMs));
  }

  /** Whatever happens, the frame requests alternate, starting with the one
      that leaves the initial state, and the last one matches the final
      state: every change of `isExpanded` makes exactly one request and no
      request is made without one. */
  lemma {:induction false} RunRequestsAlternate(s: State, es: seq<Event>)
    ensures Alternating(s.expanded, Run(s, es).outputs)
    ensures var tr := Run(s, es);
            tr.final.expanded == (if tr.outputs == [] then s.expanded else tr.outputs[|tr.outputs| - 1] == ExpandFrame)
    decreases |es|
  {
    if es != [] {
      var t := Step(s, es[0]);
      RunRequestsAlternate(t.next, es[1..]);
      var rest := Run(t.next, es[1..]);
      assert Run(s, es) == Traces.Trace(rest.final, Requests(t) + rest.outputs);
      if t.request.Some? {
        assert t.next.expanded == !s.expanded;
        assert t.request.value == RequestFor(!s.expanded);
        var reqs := [t.request.value] + rest.outputs;
        assert reqs[1..] == rest.outputs;
      } else {
        assert t.next.expanded == s.expanded;
        assert Requests(t) + rest.outputs == rest.outputs;
      }
    }
  }

  /** Any run from a valid state stays valid. */
  lemma {:induction false} RunPreservesValid(s: State, es: seq<Event>)
    requires Valid(s)
    ensures Valid(Run(s, es).final)
    decreases |es|
  {
    if es != [] {
      StepPreservesValid(s, es[0]);
      RunPreservesValid(Step(s, es[0]).next, es[1..]);
      assert Run(s, es).final == Run(Step(s, es[0]).next, es[1..]).final;
    }
  }

  /** Before any event the pill appears once, and its `onAppear` asks for
      the collapsed frame although `isExpanded` has not changed. On a fresh
      window and a main screen that is no move. */
  lemma FirstRenderOnScreen(screen: Screen)
    ensures RequestFor(Initial.expanded) == CollapseFrame
    ensures var m := WindowManager.SetupWindow(Some(screen));
            Render(m, Some(screen), Some(RequestFor(Initial.expanded))) == m
  {
    var m := WindowManager.SetupWindow(Some(screen));
    assert Render(m, Some(screen), Some(CollapseFrame)) == WindowManager.CollapseWindow(m, Some(screen));
    WindowManager.CollapseAfterSetup(screen);
  }

  /** Without a main screen the same first request, for the collapsed
      frame, moves the fresh window from the origin to the zero screen's
      notch frame, whose origin is (-90, -32). */
  lemma FirstRenderWithoutScreen()
    ensures Render(WindowManager.SetupWindow(None), None, Some(CollapseFrame))
              == WindowManager.Manager(Some(WindowManager.Window(WindowManager.CollapseTarget(ZeroRect), false)))
  {
    WindowManager.CollapseAfterSetupWithoutScreen();
  }

  /** The request a step makes, applied to the window manager, puts the
      window in the frame that belongs to the new state. */
  lemma StepRequestSetsFrame(s: State, e: Event, m: WindowManager.Manager, main: Screen)
    requires m.window.Some?
    requires Step(s, e).request.Some?
    ensures var t := Step(s, e);
            var w := Render(m, Some(main), t.request).window.value;
            w.frame == (if t.next.expanded then WindowManager.ExpandTarget(main.frame)
                        else WindowManager.CollapseTarget(main.frame))
  {
  }
}

=== FILE: geometry.dfy ===
/** Points, sizes and rectangles in AppKit screen coordinates (origin at the
    bottom-left, y growing upwards). CGFloat is modelled as `real`, so every
    placement fact below is exact. */
module Geometry {

  /** A width or height. Window and screen frames never have negative
      extents, so CGRect's standardisation of negative sizes does not arise. */
  type Extent = r: real | 0.0 <= r

  datatype Point = Point(x: real, y: real)

  datatype Size = Size(width: Extent, height: Extent)

  datatype Rect = Rect(x: real, y: real, width: Extent, height: Extent) {

    function MinX(): real { x }
    function MaxX(): real { x + width }
    function MidX(): real { x + width / 2.0 }
    function MinY(): real { y }
    function MaxY(): real { y + height }
    function MidY(): real { y + height / 2.0 }

    function Extents(): Size { Size(width, height) }

    /** `setFrameOrigin`: the same size at a new origin. */
    function WithOrigin(nx: real, ny: real): (r: Rect)
      ensures r.Extents() == Extents()
      ensures r.MinX() == nx && r.MinY() == ny
    {
      Rect(nx, ny, width, height)
    }

    /** True when `inner` lies entirely inside this rectangle. */
    predicate Encloses(inner: Rect)
    {
      MinX() <= inner.MinX() && inner.MaxX() <= MaxX() &&
      MinY() <= inner.MinY() && inner.MaxY() <= MaxY()
    }
  }

  /** `NSRect.zero`. */
  const ZeroRect: Rect := Rect(0.0, 0.0, 0.0, 0.0)

  /** An `NSScreen`: its full frame and the part not covered by the menu bar
      and the Dock. */
  datatype Screen = Screen(frame: Rect, visibleFrame: Rect)
}

=== FILE: hover_detector.dfy ===
/** The global mouse-move debouncer. Every move cancels the running one-shot
    timer, stores the cursor location and schedules a new 0.5 s timer that
    carries that location; when a timer fires, the location it carries is
    handed to hover handling, which is reported here as an output.
    Mouse events arrive through two monitors: a global one (moves over other
    applications) that `stopMonitoring` removes, and a local one (moves over
    this application's own windows) that is never stored and so never
    removed; every `startMonitoring` that runs installs one more. */
module HoverDetector {
  import opened Wrappers
  import opened Geometry
  import opened Timers
  import Traces

  /** The debounce delay, 0.5 s. */
  const HoverDelayMs: nat := 500

  /** Which monitor delivers a mouse move. */
  datatype Source = Global | Local

  datatype Event =
    | StartMonitoring
    | StopMonitoring
    | MouseMoved(location: Point, source: Source)
    | Tick(elapsed: nat)   // the run loop advances; due timers fire

  datatype Detector = Detector(
    isMonitoring: bool,
    globalMonitor: bool,          // `eventMonitor != nil`
    localMonitors: nat,           // local monitors installed so far
    lastMouseLocation: Point,
    hoverTimer: Option<nat>,      // id of the most recently scheduled timer
    pending: seq<Timer<Point>>,   // scheduled timers not yet fired or invalidated
    now: nat,
    nextId: nat)

  datatype Transition = Transition(next: Detector, hovers: seq<Point>)

  /** A fresh detector: not monitoring, location `.zero`, no timer. */
  const Initial: Detector := Detector(false, false, 0, Point(0.0, 0.0), None, [], 0, 0)

  /** The detector's invariant: the global monitor is installed exactly while
      monitoring, and at most one timer is pending — the one the handle
      names, carrying the last stored location, due within 0.5 s. */
  ghost predicate Valid(d: Detector)
  {
    && (d.isMonitoring <==> d.globalMonitor)
    && (d.isMonitoring ==> d.localMonitors > 0)
    && (d.hoverTimer.Some? ==> d.hoverTimer.value < d.nextId)
    && |d.pending| <= 1
    && (d.pending != [] ==> Armed(d, d.pending[0]))
  }

  /** `t` is the timer the last move scheduled and it has not fired yet. */
  ghost predicate Armed(d: Detector, t: Timer<Point>)
  {
    && d.hoverTimer == Some(t.id)
    && t.payload == d.lastMouseLocation
    && d.now < t.due <= d.now + HoverDelayMs
  }

  /** The timer one move at `location` schedules. */
  function HoverTimer(d: Detector, location: Point): Timer<Point>
  {
    Timer(d.nextId, d.now + HoverDelayMs, location)
  }

  /** `handleMouseMoved`: invalidate the held timer, store the location,
      schedule a new timer for it. */
  function HandleMouseMoved(d: Detector, location: Point): (r: Detector)
    ensures r.lastMouseLocation == location
    ensures r.hoverTimer == Some(d.nextId)
    ensures r.nextId == d.nextId + 1
    ensures r.now == d.now
    ensures r.isMonitoring == d.isMonitoring && r.globalMonitor == d.globalMonitor
    ensures r.localMonitors == d.localMonitors
    ensures Valid(d) ==> r.pending == [HoverTimer(d, location)] && Valid(r)
  {
    var kept := Invalidate(d.pending, d.hoverTimer);
    assert Valid(d) ==> kept == [] by {
      if Valid(d) && d.pending != [] {
        assert d.pending == [d.pending[0]];
      }
    }
    d.(lastMouseLocation := location,
       hoverTimer := Some(d.nextId),
       pending := kept + [HoverTimer(d, location)],
       nextId := d.nextId + 1)
  }

  /** One move seen by `n` monitors: `handleMouseMoved` runs `n` times. */
  function Deliver(d: Detector, location: Point, n: nat): (r: Detector)
    ensures n == 0 ==> r == d
    ensures r.now == d.now && r.nextId == d.nextId + n
    ensures r.isMonitoring == d.isMonitoring && r.globalMonitor == d.globalMonitor
    ensures r.localMonitors == d.localMonitors
    ensures Valid(d) ==> Valid(r)
    ensures n > 0 && Valid(d) ==>
              && r.lastMouseLocation == location
              && r.pending == [Timer(r.nextId - 1, d.now + HoverDelayMs, location)]
    decreases n
  {
    if n == 0 then d else Deliver(HandleMouseMoved(d, location), location, n - 1)
  }

  /** `startMonitoring`: installs the global monitor and one more local
      monitor, unless already monitoring. */
  function Start(d: Detector): (r: Detector)
    ensures r.isMonitoring
    ensures d.isMonitoring ==> r == d
    ensures !d.isMonitoring ==> r.globalMonitor && r.localMonitors == d.localMonitors + 1
    ensures r.pending == d.pending && r.hoverTimer == d.hoverTimer && r.now == d.now
    ensures Valid(d) ==> Valid(r)
  {
    if d.isMonitoring then d
    else d.(globalMonitor := true, localMonitors := d.localMonitors + 1, isMonitoring := true)
  }

  /** `stopMonitoring`: removes the global monitor and invalidates the held
      timer, unless not monitoring. The local monitors stay. */
  function Stop(d: Detector): (r: Detector)
    ensures !r.isMonitoring
    ensures !d.isMonitoring ==> r == d
    ensures d.isMonitoring ==> !r.globalMonitor && r.hoverTimer.None?
    ensures d.isMonitoring && Valid(d) ==> r.pending == []
    ensures r.localMonitors == d.localMonitors && r.lastMouseLocation == d.lastMouseLocation && r.now == d.now
    ensures Valid(d) ==> Valid(r)
  {
    if !d.isMonitoring then d
    else
      var pending := Invalidate(d.pending, d.hoverTimer);
      assert Valid(d) ==> pending == [] by {
        if Valid(d) && d.pending != [] {
          assert d.pending == [d.pending[0]];
        }
      }
      d.(globalMonitor := false, pending := pending, hoverTimer := None, isMonitoring := false)
  }

  /** How many times a move from `source` reaches `handleMouseMoved`. */
  function Listeners(d: Detector, source: Source): nat
  {
    match source
    case Global => if d.globalMonitor then 1 else 0
    case Local => d.localMonitors
  }

  /** A mouse move delivered by the monitors listening to `source`: no
      listener, no effect; otherwise exactly one timer replaces whatever was
      pending and the location is stored. */
  function Moved(d: Detector, location: Point, source: Source): (r: Detector)
    ensures Listeners(d, source) == 0 ==> r == d
    ensures r.isMonitoring == d.isMonitoring && r.globalMonitor == d.globalMonitor
    ensures r.localMonitors == d.localMonitors && r.now == d.now
    ensures Valid(d) ==> Valid(r)
    ensures Listeners(d, source) > 0 && Valid(d) ==>
              && r.lastMouseLocation == location
              && |r.pending| == 1
              && r.pending[0].due == d.now + HoverDelayMs
              && r.pending[0].payload == location
              && r.hoverTimer == Some(r.pending[0].id)
  {
    Deliver(d, location, Listeners(d, source))
  }

  /** The clock advances by `elapsed`; the timers that come due fire and
      their locations are handled. From a valid state that is at most one
      location: the last one stored, exactly when the pending timer is due. */
  function Advance(d: Detector, elapsed: nat): (t: Transition)
    ensures t.next.now == d.now + elapsed
    // handling a hover reads the location only: nothing else in the detector changes
    ensures && t.next.isMonitoring == d.isMonitoring && t.next.globalMonitor == d.globalMonitor
            && t.next.localMonitors == d.localMonitors && t.next.hoverTimer == d.hoverTimer
            && t.next.lastMouseLocation == d.lastMouseLocation && t.next.nextId == d.nextId
    ensures Valid(d) ==> Valid(t.next)
    ensures Valid(d) ==>
              t.hovers == (if d.pending != [] && d.pending[0].due <= d.now + elapsed
                           then [d.lastMouseLocation] else [])
    ensures Valid(d) ==> (t.next.pending == [] <==> d.pending == [] || d.pending[0].due <= d.now + elapsed)
  {
    var now := d.now + elapsed;
    var fired := Due(d.pending, now);
    var waiting := Waiting(d.pending, now);
    assert Valid(d) && d.pending != [] ==> d.pending == [d.pending[0]];
    assert Valid(d) && d.pending != [] && d.pending[0].due <= now ==> d.pending[0] in fired;
    assert Valid(d) && d.pending != [] && now < d.pending[0].due ==> d.pending[0] in waiting;
    Transition(d.(now := now, pending := waiting), Payloads(fired))
  }

  /** One event; `hovers` lists the locations handed to hover handling. */
  function Step(d: Detector, e: Event): (t: Transition)
    ensures !e.Tick? ==> t.hovers == []
    ensures e.StartMonitoring? ==> t.next == Start(d)
    ensures e.StopMonitoring? ==> t.next == Stop(d)
    ensures e.MouseMoved? ==> t.next == Moved(d, e.location, e.source)
    ensures e.Tick? ==> t == Advance(d, e.elapsed)
  {
    match e
    case StartMonitoring => Transition(Start(d), [])
    case StopMonitoring => Transition(Stop(d), [])
    case MouseMoved(location, source) => Transition(Moved(d, location, source), [])
    case Tick(elapsed) => Advance(d, elapsed)
  }

  /** `Step` in the shape the trace runner takes. */
  function StepPair(d: Detector, e: Event): (Detector, seq<Point>)
  {
    var t := Step(d, e);
    (t.next, t.hovers)
  }

  /** A sequence of events; the outputs are the hover handlings in order. */
  function Run(d: Detector, es: seq<Event>): Traces.Trace<Detector, Point>
  {
    Traces.Run(StepPair, d, es)
  }

  /** The accessibility lookup is a stub: no point has text. */
  function HasTextAtPoint(p: Point): (r: bool)
    ensures !r
  {
    false
  }

  // ---------------------------------------------------------------------
  // Properties
  // ---------------------------------------------------------------------

  lemma StepPreservesValid(d: Detector, e: Event)
    requires Valid(d)
    ensures Valid(Step(d, e).next)
  {
  }

  /** From any valid state, every reachable state is valid; in particular at
      most one hover timer is ever pending. */
  lemma {:induction false} RunPreservesValid(d: Detector, es: seq<Event>)
    requires Valid(d)
    ensures Valid(Run(d, es).final)
    ensures |Run(d, es).final.pending| <= 1
    decreases |es|
  {
    if es != [] {
      StepPreservesValid(d, es[0]);
      RunPreservesValid(Step(d, es[0]).next, es[1..]);
      assert Run(d, es).final == Run(Step(d, es[0]).next, es[1..]).final;
    }
  }

  lemma InitialIsValid()
    ensures Valid(Initial) && !Initial.isMonitoring && Initial.pending == []
  {
  }

  /** One move of a burst: the cursor moves to `at`, then rests for `pause`. */
  datatype Move = Move(at: Point, pause: nat)

  function BurstEvents(ms: seq<Move>): seq<Event>
    decreases |ms|
  {
    if ms == [] then [] else [MouseMoved(ms[0].at, Global), Tick(ms[0].pause)] + BurstEvents(ms[1..])
  }

  /** One move of a burst, as a two-event run: the move, then the pause. */
  lemma BurstHead(d: Detector, m: Move)
    ensures var t := Advance(Moved(d, m.at, Global), m.pause);
            var tr := Run(d, [MouseMoved(m.at, Global), Tick(m.pause)]);
            tr.final == t.next && tr.outputs == t.hovers
  {
    var d1 := Moved(d, m.at, Global);
    var t2 := Advance(d1, m.pause);
    assert StepPair(d, MouseMoved(m.at, Global)) == (d1, []);
    assert StepPair(d1, Tick(m.pause)) == (t2.next, t2.hovers);
    Traces.RunPair(StepPair, d, MouseMoved(m.at, Global), Tick(m.pause));
  }

  /** What one move of a burst leaves behind: a short pause hands over
      nothing and keeps the detector listening; a long one hands over the
      move's location and leaves no timer. */
  lemma BurstMove(d: Detector, m: Move)
    requires Valid(d) && d.globalMonitor
    ensures var t := Advance(Moved(d, m.at, Global), m.pause);
            && Valid(t.next) && t.next.globalMonitor
            && (m.pause < HoverDelayMs ==> t.hovers == [])
            && (m.pause >= HoverDelayMs ==> t.hovers == [m.at] && t.next.pending == [])
  {
  }

  /** A burst of moves, each less than 0.5 s after the previous one, ending
      in a rest of at least 0.5 s: exactly one hover is handled, for the last
      location, and no timer is left. */
  lemma {:induction false} BurstReportsLastOnly(d: Detector, ms: seq<Move>)
    requires Valid(d) && d.globalMonitor
    requires ms != []
    requires forall i :: 0 <= i < |ms| - 1 ==> ms[i].pause < HoverDelayMs
    requires ms[|ms| - 1].pause >= HoverDelayMs
    ensures Run(d, BurstEvents(ms)).outputs == [ms[|ms| - 1].at]
    ensures Run(d, BurstEvents(ms)).final.pending == []
    decreases |ms|
  {
    var m := ms[0];
    var t2 := Advance(Moved(d, m.at, Global), m.pause);
    var rest := Run(t2.next, BurstEvents(ms[1..]));
    assert Run(d, BurstEvents(ms)) == Traces.Trace(rest.final, t2.hovers + rest.outputs) by {
      var head := [MouseMoved(m.at, Global), Tick(m.pause)];
      BurstHead(d, m);
      assert BurstEvents(ms) == head + BurstEvents(ms[1..]);
      Traces.RunAppend(StepPair, d, head, BurstEvents(ms[1..]));
    }
    BurstMove(d, m);
    if |ms| == 1 {
      assert rest == Traces.Trace(t2.next, []) by {
        assert BurstEvents(ms[1..]) == [];
      }
      assert t2.hovers + [] == [m.at];
    } else {
      assert m.pause < HoverDelayMs;
      assert forall i :: 0 <= i < |ms[1..]| - 1 ==> ms[1..][i].pause < HoverDelayMs by {
        forall i | 0 <= i < |ms[1..]| - 1
          ensures ms[1..][i].pause < HoverDelayMs
        {
          assert ms[1..][i] == ms[i + 1];
        }
      }
      BurstReportsLastOnly(t2.next, ms[1..]);
      assert [] + rest.outputs == rest.outputs;
    }
  }

  /** A fresh detector hears no global move until monitoring starts; once
      started, a global move is handled 0.5 s later. */
  lemma StartEnablesGlobalHovers(p: Point)
    ensures Run(Initial, [MouseMoved(p, Global), Tick(HoverDelayMs)]).outputs == []
    ensures Run(Initial, [StartMonitoring, MouseMoved(p, Global), Tick(HoverDelayMs)]).outputs == [p]
  {
    Traces.RunPair(StepPair, Initial, MouseMoved(p, Global), Tick(HoverDelayMs));
    var d1 := Start(Initial);
    assert StepPair(Initial, StartMonitoring) == (d1, []);
    assert [StartMonitoring, MouseMoved(p, Global), Tick(HoverDelayMs)]
        == [StartMonitoring] + [MouseMoved(p, Global), Tick(HoverDelayMs)];
    Traces.RunAppend(StepPair, Initial, [StartMonitoring], [MouseMoved(p, Global), Tick(HoverDelayMs)]);
    Traces.RunSingle(StepPair, Initial, StartMonitoring);
    BurstHead(d1, Move(p, HoverDelayMs));
  }

  /** The local monitor outlives `stopMonitoring`: after a stop, a move over
      the application's own window still arms a timer, and 0.5 s later a
      hover is handled. */
  lemma LocalMovesAfterStop(d: Detector, location: Point)
    requires Valid(d) && d.isMonitoring
    ensures var tr := Run(d, [StopMonitoring, MouseMoved(location, Local), Tick(HoverDelayMs)]);
            tr.outputs == [location] && !tr.final.isMonitoring
  {
    var d1 := Step(d, StopMonitoring).next;
    assert [StopMonitoring, MouseMoved(location, Local), Tick(HoverDelayMs)]
        == [StopMonitoring] + [MouseMoved(location, Local), Tick(HoverDelayMs)];
    Traces.RunAppend(StepPair, d, [StopMonitoring], [MouseMoved(location, Local), Tick(HoverDelayMs)]);
    Traces.RunSingle(StepPair, d, StopMonitoring);
    Traces.RunPair(StepPair, d1, MouseMoved(location, Local), Tick(HoverDelayMs));
  }
}

=== FILE: timers.dfy ===
/** One-shot run-loop timers, as a list of scheduled timers in the order they
    were scheduled. Time is integer milliseconds. A timer leaves the list when
    it is invalidated or when it fires; invalidating a timer that already
    fired, or was never scheduled, changes nothing. */
module Timers {
  import opened Wrappers

  datatype Timer<T> = Timer(id: nat, due: nat, payload: T)

  /** `timer.invalidate()` on the timer with identity `id`. */
  function Cancel<T(==,!new)>(ts: seq<Timer<T>>, id: nat): (r: seq<Timer<T>>)
    ensures forall t :: t in r <==> t in ts && t.id != id
    ensures |r| <= |ts|
    ensures (forall t :: t in ts ==> t.id != id) ==> r == ts
  {
    if ts == [] then []
    else (if ts[0].id == id then [] else [ts[0]]) + Cancel(ts[1..], id)
  }

  /** `hoverTimer?.invalidate()`: cancels the held timer, if any. */
  function Invalidate<T(==,!new)>(ts: seq<Timer<T>>, handle: Option<nat>): (r: seq<Timer<T>>)
    ensures handle.None? ==> r == ts
    ensures handle.Some? ==> forall t :: t in r <==> t in ts && t.id != handle.value
  {
    match handle
    case None => ts
    case Some(id) => Cancel(ts, id)
  }

  /** The timers that fire once the clock reaches `now`, in schedule order. */
  function Due<T(==,!new)>(ts: seq<Timer<T>>, now: nat): (r: seq<Timer<T>>)
    ensures forall t :: t in r <==> t in ts && t.due <= now
    ensures |r| <= |ts|
  {
    if ts == [] then []
    else (if ts[0].due <= now then [ts[0]] else []) + Due(ts[1..], now)
  }

  /** The timers still waiting once the clock reaches `now`. */
  function Waiting<T(==,!new)>(ts: seq<Timer<T>>, now: nat): (r: seq<Timer<T>>)
    ensures forall t :: t in r <==> t in ts && now < t.due
    ensures |Due(ts, now)| + |r| == |ts|
  {
    if ts == [] then []
    else (if ts[0].due <= now then [] else [ts[0]]) + Waiting(ts[1..], now)
  }

  /** What the fired timers carry, in firing order. */
  function Payloads<T>(ts: seq<Timer<T>>): (r: seq<T>)
    ensures |r| == |ts|
    ensures forall i :: 0 <= i < |ts| ==> r[i] == ts[i].payload
  {
    if ts == [] then [] else [ts[0].payload] + Payloads(ts[1..])
  }
}

=== FILE: traces.dfy ===
/** Running a deterministic state machine over a sequence of events. A step
    returns the next state and the outputs the event produced. */
module Traces {

  datatype Trace<S, O> = Trace(final: S, outputs: seq<O>)

  /** Feeds `es` to `step` in arrival order, concatenating the outputs. */
  function Run<S, E, O>(step: (S, E) -> (S, seq<O>), s: S, es: seq<E>): (tr: Trace<S, O>)
    decreases |es|
  {
    if es == [] then Trace(s, [])
    else
      var next := step(s, es[0]);
      var rest := Run(step, next.0, es[1..]);
      Trace(rest.final, next.1 + rest.outputs)
  }

  /** Running `a` then `b` is running `a + b`. */
  lemma {:induction false} RunAppend<S, E, O>(step: (S, E) -> (S, seq<O>), s: S, a: seq<E>, b: seq<E>)
    ensures Run(step, s, a + b).final == Run(step, Run(step, s, a).final, b).final
    ensures Run(step, s, a + b).outputs == Run(step, s, a).outputs + Run(step, Run(step, s, a).final, b).outputs
    decreases |a|
  {
    if a != [] {
      var next := step(s, a[0]);
      assert (a + b)[0] == a[0];
      assert (a + b)[1..] == a[1..] + b;
      RunAppend(step, next.0, a[1..], b);
    } else {
      assert a + b == b;
    }
  }

  /** A single event is a single step. */
  lemma RunSingle<S, E, O>(step: (S, E) -> (S, seq<O>), s: S, e: E)
    ensures Run(step, s, [e]) == Trace(step(s, e).0, step(s, e).1)
  {
    assert [e][1..] == [];
    assert step(s, e).1 + [] == step(s, e).1;
  }

  /** Two events are two steps. */
  lemma RunPair<S, E, O>(step: (S, E) -> (S, seq<O>), s: S, e1: E, e2: E)
    ensures Run(step, s, [e1, e2]).final == step(step(s, e1).0, e2).0
    ensures Run(step, s, [e1, e2]).outputs == step(s, e1).1 + step(step(s, e1).0, e2).1
  {
    assert [e1, e2] == [e1] + [e2];
    RunAppend(step, s, [e1], [e2]);
    RunSingle(step, s, e1);
    RunSingle(step, step(s, e1).0, e2);
  }
}

=== FILE: window_manager.dfy ===
/** The singleton that owns the floating window: where it sits at the notch,
    the expanded dashboard frame, and showing/hiding it. `NSScreen.main` is a
    parameter (`None` when there is no main screen); animations are applied
    as their final frame. */
module WindowManager {
  import opened Wrappers
  import opened Geometry

  /** The collapsed (notch) size. */
  const CollapsedSize: Size := Size(180.0, 32.0)

  /** The expanded (widget dashboard) size. */
  const ExpandedSize: Size := Size(780.0, 480.0)

  /** How far the expanded frame's top edge sits below the screen top. */
  const ExpandedTopGap: real := 40.0

  datatype Window = Window(frame: Rect, visible: bool)

  /** The manager's only state: the window it may hold. */
  datatype Manager = Manager(window: Option<Window>)

  /** x of a window of width `w` centred the way the source centres it: on
      the screen's width, ignoring the screen's own origin. */
  function CentredX(screen: Rect, w: real): real
  {
    (screen.width - w) / 2.0
  }

  /** True when `r` has the given size and the manager's horizontal centring
      on `screen`, with its top edge `gap` points below the screen top. */
  ghost predicate TopAnchored(r: Rect, screen: Rect, size: Size, gap: real)
  {
    && r.Extents() == size
    && r.MidX() == screen.width / 2.0
    && r.MaxY() == screen.MaxY() - gap
  }

  /** Moves the window to the top-centre of the main screen keeping its size;
      nothing happens without a window or a main screen. */
  function PositionAtNotch(m: Manager, main: Option<Screen>): (r: Manager)
    ensures m.window.None? || main.None? ==> r == m
    ensures m.window.Some? && main.Some? ==>
              && r.window.Some?
              && r.window.value.visible == m.window.value.visible
              && TopAnchored(r.window.value.frame, main.value.frame, m.window.value.frame.Extents(), 0.0)
  {
    match (m.window, main)
    case (Some(w), Some(screen)) =>
      var x := CentredX(screen.frame, w.frame.width);
      var y := screen.frame.MaxY() - w.frame.height;
      Manager(Some(w.(frame := w.frame.WithOrigin(x, y))))
    case _ => m
  }

  /** Creates the window at the collapsed size at the origin, not yet on
      screen, and positions it at the notch. */
  function SetupWindow(main: Option<Screen>): (m: Manager)
    ensures m.window.Some? && !m.window.value.visible
    ensures m.window.value.frame.Extents() == CollapsedSize
    ensures main.Some? ==> TopAnchored(m.window.value.frame, main.value.frame, CollapsedSize, 0.0)
    ensures main.None? ==> m.window.value.frame.MinX() == 0.0 && m.window.value.frame.MinY() == 0.0
  {
    var initial := Rect(0.0, 0.0, CollapsedSize.width, CollapsedSize.height);
    PositionAtNotch(Manager(Some(Window(initial, false))), main)
  }

  /** Whether the window is on screen; false when there is no window. */
  function IsWindowVisible(m: Manager): (b: bool)
    ensures m.window.None? ==> !b
    ensures m.window.Some? ==> (b <==> m.window.value.visible)
  {
    m.window.Some? && m.window.value.visible
  }

  /** Brings a hidden window back at the notch; a visible window is left
      exactly as it is. */
  function ShowWindow(m: Manager, main: Option<Screen>): (r: Manager)
    ensures m.window.None? ==> r == m
    ensures IsWindowVisible(m) ==> r == m
    ensures m.window.Some? ==> IsWindowVisible(r)
    ensures m.window.Some? ==> r.window.value.frame.Extents() == m.window.value.frame.Extents()
    ensures m.window.Some? && !m.window.value.visible && main.Some? ==>
              TopAnchored(r.window.value.frame, main.value.frame, m.window.value.frame.Extents(), 0.0)
    // without a main screen the notch positioning returns early: shown where it is
    ensures m.window.Some? && main.None? ==> r.window.value.frame == m.window.value.frame
  {
    match m.window
    case None => m
    case Some(w) =>
      if w.visible then m
      else
        var placed := PositionAtNotch(m, main);
        Manager(Some(placed.window.value.(visible := true)))
  }

  /** Takes the window off screen (`orderOut`); its frame is kept. */
  function HideWindow(m: Manager): (r: Manager)
    ensures !IsWindowVisible(r)
    ensures r.window.Some? <==> m.window.Some?
    ensures m.window.Some? ==> r.window.value.frame == m.window.value.frame
  {
    match m.window
    case None => m
    case Some(w) => Manager(Some(w.(visible := false)))
  }

  /** Hides a visible window and shows a hidden one. */
  function ToggleWindow(m: Manager, main: Option<Screen>): (r: Manager)
    ensures m.window.None? ==> r == m
    ensures m.window.Some? ==> r.window.Some? && IsWindowVisible(r) == !IsWindowVisible(m)
    ensures IsWindowVisible(m) ==> r == HideWindow(m)
    ensures m.window.Some? && !IsWindowVisible(m) ==> r == ShowWindow(m, main)
  {
    match m.window
    case None => m
    case Some(w) => if w.visible then HideWindow(m) else ShowWindow(m, main)
  }

  /** The frame the dashboard animates to on a screen with frame `screen`. */
  function ExpandTarget(screen: Rect): Rect
  {
    Rect(CentredX(screen, ExpandedSize.width),
         screen.MaxY() - ExpandedSize.height - ExpandedTopGap,
         ExpandedSize.width, ExpandedSize.height)
  }

  /** The frame the window animates back to on a screen with frame `screen`. */
  function CollapseTarget(screen: Rect): Rect
  {
    Rect(CentredX(screen, CollapsedSize.width),
         screen.MaxY() - CollapsedSize.height,
         CollapsedSize.width, CollapsedSize.height)
  }

  /** Grows the window to the dashboard frame; nothing happens without a
      window or a main screen. Visibility is not touched. */
  function ExpandWindow(m: Manager, main: Option<Screen>): (r: Manager)
    ensures m.window.None? || main.None? ==> r == m
    ensures m.window.Some? && main.Some? ==>
              && r.window.Some?
              && r.window.value.visible == m.window.value.visible
              && TopAnchored(r.window.value.frame, main.value.frame, ExpandedSize, ExpandedTopGap)
  {
    match (m.window, main)
    case (Some(w), Some(screen)) => Manager(Some(w.(frame := ExpandTarget(screen.frame))))
    case _ => m
  }

  /** Shrinks the window to the notch frame. Without a main screen the zero
      frame stands in for the screen, so the window still moves. */
  function CollapseWindow(m: Manager, main: Option<Screen>): (r: Manager)
    ensures m.window.None? ==> r == m
    ensures m.window.Some? ==>
              && r.window.Some?
              && r.window.value.visible == m.window.value.visible
              && TopAnchored(r.window.value.frame, ScreenFrameOrZero(main), CollapsedSize, 0.0)
  {
    match m.window
    case None => m
    case Some(w) => Manager(Some(w.(frame := CollapseTarget(ScreenFrameOrZero(main)))))
  }

  /** `NSScreen.main?.frame ?? .zero`. */
  function ScreenFrameOrZero(main: Option<Screen>): Rect
  {
    match main
    case Some(s) => s.frame
    case None => ZeroRect
  }

  // ---------------------------------------------------------------------
  // Properties relating the operations to each other
  // ---------------------------------------------------------------------

  /** The manager centres on the screen's width, not on its frame: the
      window's centre is the screen's centre exactly when the screen's origin
      x is 0 (the primary display; a secondary main screen is off-centre). */
  lemma CentredOnScreenIffOriginZero(r: Rect, screen: Rect, size: Size, gap: real)
    requires TopAnchored(r, screen, size, gap)
    ensures r.MidX() == screen.MidX() <==> screen.MinX() == 0.0
  {
  }

  /** Collapsing a window moves it exactly where `PositionAtNotch` puts a
      window of the collapsed size. */
  lemma CollapseAgreesWithNotch(w: Window, screen: Screen)
    requires w.frame.Extents() == CollapsedSize
    ensures CollapseWindow(Manager(Some(w)), Some(screen)) == PositionAtNotch(Manager(Some(w)), Some(screen))
  {
  }

  /** A freshly set-up window already sits at the notch frame, so collapsing
      it on the same screen changes nothing. */
  lemma CollapseAfterSetup(screen: Screen)
    ensures CollapseWindow(SetupWindow(Some(screen)), Some(screen)) == SetupWindow(Some(screen))
  {
    var w := SetupWindow(Some(screen)).window.value;
    assert w.frame == CollapseTarget(screen.frame);
  }

  /** Without a main screen the window is set up hidden at the origin. */
  lemma SetupWithoutScreen()
    ensures SetupWindow(None) == Manager(Some(Window(Rect(0.0, 0.0, 180.0, 32.0), false)))
  {
  }

  /** Collapsing that window moves it to the notch frame of the zero screen. */
  lemma CollapseAfterSetupWithoutScreen()
    ensures CollapseWindow(SetupWindow(None), None) == Manager(Some(Window(CollapseTarget(ZeroRect), false)))
  {
    SetupWithoutScreen();
  }

  /** The zero screen's notch frame has its origin at (-90, -32). */
  lemma ZeroScreenTarget()
    ensures CollapseTarget(ZeroRect) == Rect(-90.0, -32.0, 180.0, 32.0)
  {
    ZeroScreenTargetX();
    ZeroScreenTargetY();
    ZeroScreenTargetWidth();
  }

  // The solver settles each field of the zero screen's notch frame quickly
  // on its own, but not several in one goal.
  lemma ZeroScreenTargetWidth()
    ensures CollapseTarget(ZeroRect).width == 180.0
  {
  }

  lemma ZeroScreenTargetX()
    ensures CollapseTarget(ZeroRect).x == -90.0
  {
  }

  lemma ZeroScreenTargetY()
    ensures CollapseTarget(ZeroRect).y == -32.0
  {
  }

  /** Both targets share the horizontal centre screenWidth/2, and the
      dashboard's top edge sits `ExpandedTopGap` below the notch frame's. */
  lemma TargetsShareCentre(screen: Rect)
    ensures ExpandTarget(screen).MidX() == CollapseTarget(screen).MidX() == screen.width / 2.0
    ensures ExpandTarget(screen).MaxY() == CollapseTarget(screen).MaxY() - ExpandedTopGap
  {
  }

  /** On a 1440x900 screen at the origin the dashboard's origin is (330, 380). */
  lemma ExpandExample()
    ensures ExpandTarget(Rect(0.0, 0.0, 1440.0, 900.0)) == Rect(330.0, 380.0, 780.0, 480.0)
  {
  }

  /** On a 1440x900 screen at the origin the notch frame's origin is (630, 868). */
  lemma CollapseExample()
    ensures CollapseTarget(Rect(0.0, 0.0, 1440.0, 900.0)) == Rect(630.0, 868.0, 180.0, 32.0)
  {
  }

  /** Without a main screen, collapsing still moves the window: the zero
      frame stands in for the screen, which puts the origin at (-90, -32). */
  lemma CollapseWithoutScreen(w: Window)
    ensures var f := CollapseWindow(Manager(Some(w)), None).window.value.frame;
            f.MinX() == -90.0 && f.MinY() == -32.0 && f.Extents() == CollapsedSize
  {
    var f := CollapseWindow(Manager(Some(w)), None).window.value.frame;
    assert f == CollapseTarget(ZeroRect);
    assert CollapseTarget(ZeroRect).x == (0.0 - 180.0) / 2.0;
  }

  /** Toggling twice restores visibility; a window that was visible comes
      back at the notch. */
  lemma ToggleTwiceRestoresVisibility(m: Manager, main: Option<Screen>)
    ensures IsWindowVisible(ToggleWindow(ToggleWindow(m, main), main)) == IsWindowVisible(m)
    ensures IsWindowVisible(m) && main.Some? ==>
              TopAnchored(ToggleWindow(ToggleWindow(m, main), main).window.value.frame,
                          main.value.frame, m.window.value.frame.Extents(), 0.0)
  {
  }

  /** Showing is idempotent. */
  lemma ShowIdempotent(m: Manager, main: Option<Screen>)
    ensures ShowWindow(ShowWindow(m, main), main) == ShowWindow(m, main)
  {
  }
}

=== FILE: wrappers.dfy ===
/** The optional values the source expresses with Swift optionals
    (`window: AislandWindow?`, `NSScreen.main`, `hoverTimer: Timer?`). */
module Wrappers {

  datatype Option<+T> = None | Some(value: T)
}
